=== FILE: README.md ===
# Volleyball ML environment — a Dafny model of its game logic

This project models the game logic of a Unity ML-Agents volleyball
environment. The project is verified with Dafny 4.11. The environment is a
court with two teams, Blue and Red. The ball is driven by a ball
controller, and a court controller runs the step watchdog, awards points,
registers agents in two multi-agent groups and resets the scene. Each
agent has a spike/set/jump state machine, a keyboard heuristic and an
observation vector. A statistics logger reports team and role rewards at
the end of an episode.

Modules:

- `Common`: the shared vocabulary (`Team`, `TouchType`, `Role`, `Vec3`,
  `Option`).
- `BallController`: the class `Ball` and its rally bookkeeping. This covers
  the per-side touch counter, the last hitting team and the mini-serve
  flag, plus the ruling that turns a floor or out-zone contact into a
  point.
- `Environment`: the class `Controller`. It owns a `Ball` and a list of
  agent entries. It records what it reports to the training harness
  (group rewards and episode interruptions) as a log of `GroupEvent`s.
  The watchdog, the point award and group registration are also stated as
  functions, with lemmas about them.
- `AgentControl`: the agent's action state as a `Flags` value and as the
  class `VolleyballAgent`. Each step of the state machine is specified by
  a function, and the class's methods are proved to follow those
  functions. Also here: the keyboard heuristic over an action `array`.
- `AgentObservations`: the observation vector. A method appends values in
  the source's order, and is proved equal to a functional definition of
  the vector and its length.
- `Stats`: `LogStats` as a loop over the agent list. It is proved against
  a fold, and the fold is related by lemmas to an independent list of
  rewards per team and role.

Floats are modelled as reals. Teams other than Blue and Red are `Other`;
the code compares a team only against `Blue` (and, in the logger, `Red`).

Where the code differs from its documented design, the model follows the
code:

- A jump's duration is chosen from the spiking flag as it stands before
  the jump. So a jump started from `OnActionReceived` always lasts 0.2 s,
  even a spike jump (`JumpFromActionStepIsShort`).
- A filled opponent slot carries 10 values, not 11: it has no distance
  value. A padded slot carries 11. So the vector has 177 values less one
  per opponent present.
- The ball controller declares `maxTouchesPerSide` but never enforces it.
  No fault is ruled for a fourth touch (`NoTouchLimit`).

## Model

| member | source | states |
|---|---|---|
| BallController.Ball.HitBall | Assets/Scripts/VolleyballController.cs:42-63 | The ball is relaunched along the direction with the hit kind's force (Block falls back to the pass force) times the modifier. The hitting team becomes the last hitter. The touch counter goes up by one for every kind of hit but Block. Position and spin are unchanged. |
| BallController.AfterHit | Assets/Scripts/VolleyballController.cs:57-62 | One hit's effect on the rally bookkeeping: last hitter := hitting team; +1 touch unless Block; the mini-serve flag is unchanged. |
| BallController.HitsCountTouches | Assets/Scripts/VolleyballController.cs:42-63 | Any run of hits adds exactly its number of non-Block hits to the counter and leaves the mini-serve flag alone. The last hitter is the team of the last hit. |
| BallController.NoTouchLimit | Assets/Scripts/VolleyballController.cs:19-20 | The declared three-touch limit is never enforced: four passes from any non-negative count leave the counter above 3. |
| BallController.PointWinner | Assets/Scripts/VolleyballController.cs:65-93 | A point is awarded exactly for a floor or out-zone contact, never for the net. Blue's floor scores for Red and Red's floor for Blue. Out of bounds scores for Red when Blue hit last and for Blue otherwise (also when the last hitter is neither team). The winner is always Blue or Red. |
| BallController.ServeDirection | Assets/Scripts/VolleyballController.cs:108 | A mini-serve pushes along +z exactly when Blue serves, and along -z otherwise. |
| BallController.Ball.ResetBallMiniServe | Assets/Scripts/VolleyballController.cs:98-110 | The ball is at (0, 0.5, 0) with no spin and a zero touch counter, in mini-serve, and pushed towards the serving side with the mini-serve force. The last hitter is kept. |
| BallController.Ball.ResetTouches | Assets/Scripts/VolleyballController.cs:115-118 | Only the touch counter changes, to zero. |
| BallController.Ball.EndMiniServe | Assets/Scripts/VolleyballController.cs:120-123 | Only the mini-serve flag changes, to false. |
| Environment.Controller.OnBallCollisionEnter | Assets/Scripts/VolleyballController.cs:65-93 | A contact that `PointWinner` rules a point logs the winner's point rewards and re-serves towards the winner with the counter at zero. Any other contact changes neither the log nor the ball. The watchdog counter, the agents and the groups are unchanged. |
| Environment.Tick | Assets/Scripts/EnvironmentController.cs:55-64 | A tick interrupts exactly when the watchdog is enabled (limit > 0) and the incremented counter reaches the limit. It then resets the counter to 0; otherwise the counter goes up by one. |
| Environment.WatchdogPeriod | Assets/Scripts/EnvironmentController.cs:55-64 | From a scene reset with limit m > 0, after n ticks the counter is n mod m, there have been n div m interruptions, and the counter stays below m. |
| Environment.WatchdogDisabled | Assets/Scripts/EnvironmentController.cs:58 | With a limit of 0 or less the counter only grows, by one per tick, and the episode is never interrupted. |
| Environment.Controller.FixedUpdate | Assets/Scripts/EnvironmentController.cs:55-64 | The counter follows `Tick` and stays in range. On an interruption, both groups' interruptions are logged, every agent respawns near its start at rest, and the ball is at the serve spot at rest. Otherwise nothing but the counter changes. |
| Environment.PointRewards | Assets/Scripts/EnvironmentController.cs:73-82 | Two rewards, in order: 1 - penalty to the scorer's group (a non-Blue scorer counts as Red), then -1 to the other group. The two groups differ. |
| Environment.ScorerRewardInRange | Assets/Scripts/EnvironmentController.cs:71-82 | With the watchdog enabled and its counter in range, the scorer's reward lies in (0, 1] and the loser's is -1. |
| Environment.Controller.PointScored | Assets/Scripts/EnvironmentController.cs:69-87 | The log grows by `PointRewards` with penalty counter/limit. The ball's touches are zeroed and it is re-served towards the scorer in mini-serve. The watchdog counter is not reset. |
| Environment.MembersPartition | Assets/Scripts/EnvironmentController.cs:46-49 | Every agent entry is in exactly one group: Blue's if its team is Blue, Red's otherwise. |
| Environment.Controller.Start | Assets/Scripts/EnvironmentController.cs:32-53 | Each entry's starting pose is its pose at start. The groups are exactly the Blue and non-Blue entries, in list order. The scene is then reset: counter 0, agents near their start, ball at the serve spot at rest, rally bookkeeping kept. |
| Environment.Controller.ResetScene | Assets/Scripts/EnvironmentController.cs:92-107 | The counter is 0. Every agent keeps its team and start pose, stands at its start shifted along x by at most 2, with the start rotation and no velocity. The ball is at the serve spot at rest. The log, the groups and the ball's touch counter, last hitter and mini-serve flag are unchanged. |
| Environment.Controller.ResetBall | Assets/Scripts/EnvironmentController.cs:109-114 | The ball is at (0, 0.5, 0) with no linear or angular velocity, and its rally bookkeeping is unchanged. |
| AgentControl.DetermineTouchType | Assets/Scripts/VolleyballAgent.cs:237-242 | Spike iff spiking. Set iff setting and not spiking. Bump iff neither. |
| AgentControl.AfterBallContact | Assets/Scripts/VolleyballAgent.cs:188-215 | After a ball contact the agent is neither spiking nor setting. Exactly the timer of the action in progress is zeroed. The abilities and the jump timer are unchanged. |
| AgentControl.VolleyballAgent.OnBallContact | Assets/Scripts/VolleyballAgent.cs:178-216 | The touch type reported is the one before the contact. The flags become `AfterBallContact` of the old flags. The flag invariant is kept. |
| AgentControl.VolleyballAgent.Initialize | Assets/Scripts/VolleyballAgent.cs:120-125 | Spike and set are cleared with their timers, the spike ability is off and the set ability is on; the jump timer is kept. |
| AgentControl.VolleyballAgent.Jump | Assets/Scripts/VolleyballAgent.cs:247-254 | The jump timer is 0.25 if spiking before the jump and 0.2 otherwise. Spike ability and spiking both become the jump kind. |
| AgentControl.MoveFlags | Assets/Scripts/VolleyballAgent.cs:264-348 | A movement step never leaves the agent spiking and setting at once, and keeps the flag invariant. It sets only on the ground without a jump action, restores the set ability exactly when grounded and idle, and starts a jump iff grounded with jump branch 1 or 2 and no jump running. A new spike needs branch 2 and either a spike jump starting in this step or, in the air, the spike ability; the spike ability changes only with a jump or when a spike arms. A spike arms in the air on branch 2 while allowed, and a set arms on the ground on set branch 1 while allowed. Both use up their ability and start their window. |
| AgentControl.VolleyballAgent.MoveAgent | Assets/Scripts/VolleyballAgent.cs:264-348 | The flags after the step are `MoveFlags` of the old flags and the action branches 3 and 4. The invariant is kept. |
| AgentControl.TickTimers | Assets/Scripts/VolleyballAgent.cs:350-405 | Landing ends a spike. The jump timer runs down by dt while positive. In the air a running spike window is charged once: the spike survives exactly when more than dt was left, and its timer becomes 0. A set on the ground lasts while more than dt of its window is left, running down by dt; it ends with its timer zeroed when the window runs out or the agent is airborne. No spike or set starts. The spike ability is untouched, and the set ability comes back exactly when grounded and neither spiking nor setting. The flag invariant is kept. |
| AgentControl.VolleyballAgent.OnActionReceived | Assets/Scripts/VolleyballAgent.cs:350-409 | The flags become `TickTimers` and then `MoveFlags` of the old flags. The flag invariant holds after every decision. |
| AgentControl.SpikeLastsUntilLanding | Assets/Scripts/VolleyballAgent.cs:369-375 | The spike window is charged once: its timer is zeroed after the first decrement, and re-arming in the air restores a full window. So with a window longer than dt, a spike that will not expire at the next update stays on for any number of airborne decision steps, whatever the actions. |
| AgentControl.ActionStepKeepsValid | Assets/Scripts/VolleyballAgent.cs:350-409 | Every decision step preserves: never spiking and setting together, and setting implies the set ability is used up. |
| AgentControl.JumpFromActionStepIsShort | Assets/Scripts/VolleyballAgent.cs:250 | A jump started by a decision step lasts 0.2 s, even a spike jump. |
| AgentControl.HeuristicActions | Assets/Scripts/VolleyballAgent.cs:663-691 | All branches are in 0..2, and branches past the fifth (or all, without a keyboard) are 0. Forward beats back, d beats a, right beats left, p overrides space, and b sets; each as an if-and-only-if. |
| AgentControl.Heuristic | Assets/Scripts/VolleyballAgent.cs:663-691 | The action array, zeroed first and then filled from the keys, equals `HeuristicActions`. |
| AgentObservations.Clamp01 | Assets/Scripts/VolleyballAgent.cs:623 | The touches-used value lies in [0, 1]. It is unchanged inside that range, 0 below it and 1 above it. |
| AgentObservations.RoleOneHot | Assets/Scripts/VolleyballAgent.cs:590-593 | Four indicators, ordered Passer, Hitter, Setter, Generic. Exactly one is 1, and it is the role's. |
| AgentObservations.LastTouchCode | Assets/Scripts/VolleyballAgent.cs:595-597 | 1 iff this agent touched last; -1 iff a teammate (not this agent) did; 0 otherwise. |
| AgentObservations.TeammateSlotShape | Assets/Scripts/VolleyballAgent.cs:482-520 | A teammate slot is 11 values, ending with the role one-hot when filled and all zeros when padded. |
| AgentObservations.OpponentSlotShape | Assets/Scripts/VolleyballAgent.cs:522-557 | An opponent slot is 10 values when filled, ending with the role one-hot, and 11 zeros when padded. |
| AgentObservations.TeammateSectionLength | Assets/Scripts/VolleyballAgent.cs:482-520 | n teammate slots take 11·n values. |
| AgentObservations.OpponentSectionLength | Assets/Scripts/VolleyballAgent.cs:522-557 | n opponent slots take 11·n values less one per filled slot. |
| AgentObservations.ActionSectionLength | Assets/Scripts/VolleyballAgent.cs:599-612 | n agent-list slots take 2·n values. |
| AgentObservations.AppendTeammateSlot | Assets/Scripts/VolleyballAgent.cs:484-519 | Appends exactly one teammate slot. |
| AgentObservations.AppendOpponentSlot | Assets/Scripts/VolleyballAgent.cs:524-556 | Appends exactly one opponent slot. |
| AgentObservations.AppendTeammateSlots | Assets/Scripts/VolleyballAgent.cs:482-520 | Appends the first n teammate slots, padding past the end of the list. |
| AgentObservations.AppendOpponentSlots | Assets/Scripts/VolleyballAgent.cs:522-557 | Appends the first n opponent slots, padding past the end of the list. |
| AgentObservations.AppendActionSlots | Assets/Scripts/VolleyballAgent.cs:599-612 | Appends the spike and set indicators of the first n agent-list entries, with zeros for missing ones. |
| AgentObservations.AppendSelf | Assets/Scripts/VolleyballAgent.cs:449-467 | Starts the vector with yaw, ball direction and distance, own velocity and ball velocity. |
| AgentObservations.AppendCourt | Assets/Scripts/VolleyballAgent.cs:563-588 | Appends the net, then the own goal, then the opposing goal, with the goals chosen by team. |
| AgentObservations.ObservationLength | Assets/Scripts/VolleyballAgent.cs:411-625 | The vector has 177 values less one per filled opponent slot. |
| AgentObservations.CollectObservations | Assets/Scripts/VolleyballAgent.cs:411-625 | The appended vector equals the functional layout `ObservationVector` section by section, and has length 177 minus the filled opponent slots. |
| Stats.Max | Assets/Scripts/StatsLogger.cs:29 | The larger of the two: at least both, and equal to one of them. |
| Stats.Mean | Assets/Scripts/StatsLogger.cs:69-70 | The mean times the count is the sum when the team has agents; 0 otherwise. |
| Stats.FiguresCountAndSum | Assets/Scripts/StatsLogger.cs:22-67 | A team's count and sum are the number and the sum of the cumulative rewards of its non-null agents. |
| Stats.FiguresRoleSum | Assets/Scripts/StatsLogger.cs:31-42 | The hitter, setter and passer figures are the sums of the rewards of exactly that role's agents of the team. |
| Stats.MaxIsLargestReward | Assets/Scripts/StatsLogger.cs:11-12 | The maximum is at least every reward of the team and at least float.MinValue. It is float.MinValue or one of the rewards, and float.MinValue when the team has no agents. |
| Stats.RoleSumsSplitTotal | Assets/Scripts/StatsLogger.cs:31-42 | Hitter + setter + passer figures plus the Generic agents' rewards make up the team sum. |
| Stats.EveryEntryAccounted | Assets/Scripts/StatsLogger.cs:22-67 | Blue count + Red count + skipped entries (null or of another team) = list length. |
| Stats.Report | Assets/Scripts/StatsLogger.cs:74-86 | Ten statistics, under the keys Team/{Blue,Red}/MeanReward, Team/{Blue,Red}/MaxReward, Role/Blue/{Hitter,Setter,Passer}Reward and Role/Red/{Hitter,Setter,Passer}Reward, in that order. Each key carries its own figure: the Blue and Red means, the two maxima, then the hitter, setter and passer sums of Blue and then of Red. |
| Stats.LogStats | Assets/Scripts/StatsLogger.cs:7-87 | The reported statistics are `Report` of the Blue and Red figures over the whole list. The loop keeps each team's running figures equal to the fold over the entries seen. |

## Left out

- Physics. Rigidbody integration, the ball's extra gravity in its `FixedUpdate`, the velocity the ball gets from a spike or set, `MoveTowards`, and normalisation of directions are all left out. A launched ball is modelled as a direction and a speed.
- Engine wiring. `Awake`, `Start`, `GetComponent`, colours and settings lookup are left out. The agent's own `Start` is left out, and its teammate and opponent lists are inputs. `VolleyballSettings.cs` is not part of this model; the spike and set windows are constants of an agent.
- Every component reference is assumed present. The early return of `MoveAgent` on a missing reference and the `envController != null` guard before a touch is reported are not modelled: `OnBallContact` always reports.
- `CheckIfGrounded` is an input. `dt` is a parameter standing for `Time.fixedDeltaTime`, the length of one physics step, which the timers lose once per decision. Within one decision the grounded value is taken to be the same at every check.
- Rewards and shaping penalties given to a single agent are left out: the jump penalty, the per-step air penalty, the agent-collision penalty, the active collision-stay penalty in `OnActionReceived`, and the commented-out stay handler. Group rewards and interruptions are modelled as logged events.
- `Random.Range(-2f, 2f)` in the scene reset is a nondeterministic choice of an offset in [-2, 2].
- `RegisterTouch`, `lastHitterAgent`, `touchesBlue`/`touchesRed`, `net`, `blueGoal` and `redGoal` are used but not declared by the environment controller. A reported touch is appended to the agent's log. The last hitter, the net and the goals are parameters of the observation encoder. The encoder takes a single `touchesUsed` value: the choice between `touchesBlue` and `touchesRed` by team happens outside the model.
- The observation values computed from physics (directions, distances, velocity swizzles and scaling, yaw) are inputs. `PredictLanding` and the observation debug log are left out.
- Environment.Controller.PointScored: requires a non-zero step limit. With a limit of 0 the float division gives an infinite or NaN reward, which reals cannot express.
- Environment.Controller.OnBallCollisionEnter: requires a non-zero step limit when the contact scores, for the same reason.
- Environment.Controller.FixedUpdate: does not model 32-bit wrap-around of the counter when the watchdog is disabled; the counter is an unbounded integer.
- BallController.Ball.ResetBallMiniServe: the mini-serve push is modelled as setting the ball's motion, as if it replaced any earlier one. In the engine a velocity-change force is queued until the next physics step and adds to other queued forces. On a scoring contact the serve is pushed twice, once from `PointScored` and once from the ball's own handler, so the ball leaves at twice `miniServeForce`. Queued impulses adding up are not modelled.
- Environment.Controller.OnBallCollisionEnter: for the same reason its stated serve speed is one `miniServeForce`, not the sum of the two queued pushes.
- Environment.Controller.ResetBall: sets the ball at rest but does not cancel an impulse already queued for the next physics step; queued impulses are not modelled.
- Float rounding in rewards, means and observation scaling is not modelled.
- The ball controller type and the agent's team field are named differently in some places (`VolleyballController` versus `VolleyballBallController`, `team` versus `teamId`, and the agent reading entries of `AgentsList` as agents although the list holds `PlayerInfo` entries). Each is taken to be the same entity; the observation encoder receives the agents' spike and set flags directly.

=== FILE: agent_control.dfy ===
/** The agent's action and contact logic: the spike and set flags with their
    timers, the jump, the touch type reported on ball contact, and the
    keyboard heuristic. Whether the agent stands on the ground and the length
    of a physics step are inputs. */
module AgentControl {
  import opened Common

  /** The agent's action state. Timers are in seconds. */
  datatype Flags = Flags(
    isSpiking: bool, isSetting: bool, canSpike: bool, canSet: bool,
    jumpingTime: real, spikeTimer: real, setTimer: real)

  /** The state after initialisation. */
  const InitialFlags: Flags := Flags(false, false, false, true, 0.0, 0.0, 0.0)

  /** The agent never spikes and sets at once, and a set in progress has
      used up the set ability. */
  ghost predicate FlagsValid(f: Flags)
  {
    !(f.isSpiking && f.isSetting) && (f.isSetting ==> !f.canSet)
  }

  /** The touch type reported for a ball contact: spiking takes precedence
      over setting, and anything else is a bump. */
  function DetermineTouchType(f: Flags): (t: TouchType)
    ensures t == Spike <==> f.isSpiking
    ensures t == Set <==> !f.isSpiking && f.isSetting
    ensures t == Bump <==> !f.isSpiking && !f.isSetting
  {
    if f.isSpiking then Spike else if f.isSetting then Set else Bump
  }

  /** The flags after a ball contact: a spike or set in progress is used up. */
  function AfterBallContact(f: Flags): (r: Flags)
    ensures !r.isSpiking && !r.isSetting
    ensures r.spikeTimer == (if f.isSpiking then 0.0 else f.spikeTimer)
    ensures r.setTimer == (if f.isSetting then 0.0 else f.setTimer)
    ensures r.canSpike == f.canSpike && r.canSet == f.canSet && r.jumpingTime == f.jumpingTime
  {
    var f1 := if f.isSpiking then f.(isSpiking := false, spikeTimer := 0.0) else f;
    if f1.isSetting then f1.(isSetting := false, setTimer := 0.0) else f1
  }

  /** The jump's own effect. Its duration is chosen from the spiking flag as
      it stands before the jump, not from the kind of jump. */
  function Jumped(f: Flags, isSpikeJump: bool): Flags
  {
    f.(jumpingTime := if f.isSpiking then 0.25 else 0.2, canSpike := isSpikeJump, isSpiking := isSpikeJump)
  }

  /** Whether a movement step starts a jump. */
  predicate JumpStarts(f: Flags, grounded: bool, jumpType: int)
  {
    (jumpType == 1 || jumpType == 2) && f.jumpingTime <= 0.0 && grounded
  }

  /** The flag part of one movement step, for jump branch `jumpAction` and
      set branch `setAction`. */
  function MoveFlags(f: Flags, grounded: bool, jumpAction: int, setAction: int,
                     spikeWindow: real, setWindow: real): (r: Flags)
    // never spiking and setting together; a set only on the ground without a jump action
    ensures !(r.isSpiking && r.isSetting)
    ensures r.isSetting ==> grounded && jumpAction != 1 && jumpAction != 2
    ensures FlagsValid(f) ==> FlagsValid(r)
    // the set ability comes back exactly when grounded with neither flag set
    ensures grounded && !r.isSetting && !r.isSpiking ==> r.canSet
    ensures r.canSet && !f.canSet ==> grounded && !r.isSetting && !r.isSpiking
    // a jump starts only on the ground with jump type 1 or 2 and no jump running
    ensures r.jumpingTime != f.jumpingTime <==> JumpStarts(f, grounded, jumpAction)
    ensures JumpStarts(f, grounded, jumpAction) ==>
      r.canSpike == (jumpAction == 2) && r.isSpiking == (jumpAction == 2) && !r.isSetting
    // a spike arms in the air on jump action 2 while it can, and uses up the ability
    ensures !grounded && jumpAction == 2 && f.canSpike ==>
      r.isSpiking && !r.canSpike && r.spikeTimer == spikeWindow
    ensures r.isSpiking && !f.isSpiking ==>
      jumpAction == 2 && (JumpStarts(f, grounded, jumpAction) || (!grounded && f.canSpike))
    // the spike ability changes only with a jump or when a spike arms
    ensures !JumpStarts(f, grounded, jumpAction) && !(!grounded && jumpAction == 2 && f.canSpike) ==>
      r.canSpike == f.canSpike
    ensures r.spikeTimer != f.spikeTimer ==> !grounded && jumpAction == 2 && f.canSpike
    // a set arms on the ground on set action 1 while it can, and uses up the ability
    ensures r.isSetting && !f.isSetting ==>
      grounded && setAction == 1 && f.canSet && !r.canSet && r.setTimer == setWindow
    ensures grounded && setAction == 1 && f.canSet && jumpAction != 1 && jumpAction != 2 && !f.isSpiking ==>
      r.isSetting && !r.canSet
  {
    var f1 := if JumpStarts(f, grounded, jumpAction) then Jumped(f, jumpAction == 2) else f;
    var f2 :=
      if !grounded && jumpAction == 2 && f1.canSpike then
        f1.(isSpiking := true, spikeTimer := spikeWindow, canSpike := false)
      else if grounded && setAction == 1 && f1.canSet then
        f1.(isSetting := true, setTimer := setWindow, canSet := false)
      else f1;
    var f3 :=
      if !grounded || jumpAction == 1 || jumpAction == 2 || f2.isSpiking then
        f2.(isSetting := false, setTimer := 0.0)
      else f2;
    if grounded && !f3.isSetting && !f3.isSpiking then f3.(canSet := true) else f3
  }

  /** The timer part of one action step, before the movement step: landing
      ends a spike, the jump, spike and set timers run down by `dt`, and the
      set ability comes back on the ground when idle. */
  function TickTimers(f: Flags, grounded: bool, dt: real): (r: Flags)
    ensures grounded ==> !r.isSpiking
    ensures r.isSpiking ==> f.isSpiking
    ensures r.isSetting ==> f.isSetting
    ensures FlagsValid(f) ==> FlagsValid(r)
    // the spike ability is untouched; the set ability comes back exactly
    // when the agent is grounded and neither spiking nor setting
    ensures r.canSpike == f.canSpike
    ensures r.canSet == (f.canSet || (grounded && !r.isSetting && !r.isSpiking))
    // the jump timer runs down by dt while it is positive
    ensures r.jumpingTime == (if f.jumpingTime > 0.0 then f.jumpingTime - dt else f.jumpingTime)
    // in the air a running spike window is charged once: the spike survives
    // exactly when more than dt of it was left, and its timer is zeroed
    ensures !grounded && f.isSpiking && f.spikeTimer > 0.0 ==>
      r.spikeTimer == 0.0 && (r.isSpiking <==> f.spikeTimer - dt > 0.0)
    ensures grounded ==> r.spikeTimer == f.spikeTimer
    // a set on the ground lasts while its window does, and ends (timer zeroed)
    // when the window runs out or the agent leaves the ground
    ensures f.isSetting && f.setTimer > 0.0 && grounded && f.setTimer - dt > 0.0 ==>
      r.isSetting && r.setTimer == f.setTimer - dt
    ensures f.isSetting && f.setTimer > 0.0 && (f.setTimer - dt <= 0.0 || !grounded) ==>
      !r.isSetting && r.setTimer == 0.0
  {
    var f1 := if grounded then f.(isSpiking := false) else f;
    var f2 := if f1.jumpingTime > 0.0 then f1.(jumpingTime := f1.jumpingTime - dt) else f1;
    var f3 :=
      if f2.isSpiking && f2.spikeTimer > 0.0 then
        f2.(isSpiking := f2.spikeTimer - dt > 0.0, spikeTimer := 0.0)
      else f2;
    var f4 :=
      if f3.isSetting && f3.setTimer > 0.0 then
        var t := f3.setTimer - dt;
        if t <= 0.0 || !grounded then f3.(isSetting := false, setTimer := 0.0) else f3.(setTimer := t)
      else f3;
    if grounded && !f4.isSetting && !f4.isSpiking then f4.(canSet := true) else f4
  }

  /** One decision step: the timers, then the movement step with the jump
      branch `act[3]` and the set branch `act[4]`. */
  function ActionStep(f: Flags, grounded: bool, dt: real, act: seq<int>,
                      spikeWindow: real, setWindow: real): Flags
    requires |act| >= 5
  {
    MoveFlags(TickTimers(f, grounded, dt), grounded, act[3], act[4], spikeWindow, setWindow)
  }

  /** Every decision step keeps the flag invariant. */
  lemma ActionStepKeepsValid(f: Flags, grounded: bool, dt: real, act: seq<int>,
                             spikeWindow: real, setWindow: real)
    requires |act| >= 5 && FlagsValid(f)
    ensures FlagsValid(ActionStep(f, grounded, dt, act, spikeWindow, setWindow))
  {
    var t := TickTimers(f, grounded, dt);
    assert FlagsValid(t);
  }

  /** A jump started by a decision step always lasts 0.2 seconds, even a
      spike jump: the agent is on the ground, so the step has already
      cleared the spiking flag that selects the 0.25-second duration. */
  lemma JumpFromActionStepIsShort(f: Flags, grounded: bool, dt: real, act: seq<int>,
                                  spikeWindow: real, setWindow: real)
    requires |act| >= 5
    requires JumpStarts(TickTimers(f, grounded, dt), grounded, act[3])
    ensures ActionStep(f, grounded, dt, act, spikeWindow, setWindow).jumpingTime == 0.2
  {
    var t := TickTimers(f, grounded, dt);
    assert !t.isSpiking;
    assert Jumped(t, act[3] == 2).jumpingTime == 0.2;
  }

  /** The flags after one airborne decision step per entry of `acts`. */
  function AirSteps(f: Flags, dt: real, acts: seq<seq<int>>, spikeWindow: real, setWindow: real): Flags
    requires forall i :: 0 <= i < |acts| ==> |acts[i]| >= 5
    decreases |acts|
  {
    if acts == [] then f
    else AirSteps(ActionStep(f, false, dt, acts[0], spikeWindow, setWindow), dt, acts[1..], spikeWindow, setWindow)
  }

  /** A spike that will not expire at the next timer update: either more
      than `dt` of its window is left, or its window has already been
      charged. */
  predicate SpikeHeld(f: Flags, dt: real)
  {
    f.isSpiking && (f.spikeTimer - dt > 0.0 || f.spikeTimer <= 0.0)
  }

  /** One airborne decision step keeps a held spike held, whatever the
      actions, when the spike window is longer than `dt`. */
  lemma AirStepKeepsSpike(f: Flags, dt: real, act: seq<int>, spikeWindow: real, setWindow: real)
    requires |act| >= 5 && spikeWindow - dt > 0.0 && SpikeHeld(f, dt)
    ensures SpikeHeld(ActionStep(f, false, dt, act, spikeWindow, setWindow), dt)
  {
    var t := TickTimers(f, false, dt);
    assert t.isSpiking && t.spikeTimer <= 0.0;
    assert !JumpStarts(t, false, act[3]);
  }

  /** The spike window is charged once: its timer is zeroed after the first
      decrement, and re-arming in the air sets it to a full window again. So
      with a window longer than `dt`, a held spike stays on for any number of
      airborne decision steps, whatever the actions; only landing or a ball
      contact ends it. */
  lemma {:induction false} SpikeLastsUntilLanding(f: Flags, dt: real, acts: seq<seq<int>>,
                                                  spikeWindow: real, setWindow: real)
    requires forall i :: 0 <= i < |acts| ==> |acts[i]| >= 5
    requires spikeWindow - dt > 0.0 && SpikeHeld(f, dt)
    ensures AirSteps(f, dt, acts, spikeWindow, setWindow).isSpiking
    ensures SpikeHeld(AirSteps(f, dt, acts, spikeWindow, setWindow), dt)
    decreases |acts|
  {
    if acts != [] {
      AirStepKeepsSpike(f, dt, acts[0], spikeWindow, setWindow);
      SpikeLastsUntilLanding(ActionStep(f, false, dt, acts[0], spikeWindow, setWindow),
                             dt, acts[1..], spikeWindow, setWindow);
    }
  }

  /** One agent's action and contact state. */
  class VolleyballAgent {
    const teamId: Team
    var role: Role
    const spikeWindow: real
    const setWindow: real

    var isSpiking: bool
    var isSetting: bool
    var canSpike: bool
    var canSet: bool
    var jumpingTime: real
    var spikeTimer: real
    var setTimer: real

    /** The touch types reported to the environment, oldest first. */
    var reportedTouches: seq<TouchType>

    function State(): Flags
      reads this
    {
      Flags(isSpiking, isSetting, canSpike, canSet, jumpingTime, spikeTimer, setTimer)
    }

    ghost predicate Valid()
      reads this
    {
      FlagsValid(State())
    }

    constructor (teamId: Team, spikeWindow: real, setWindow: real)
      ensures Valid() && State() == InitialFlags
      ensures this.teamId == teamId && role == Generic
      ensures this.spikeWindow == spikeWindow && this.setWindow == setWindow
      ensures reportedTouches == []
    {
      this.teamId := teamId;
      role := Generic;
      this.spikeWindow := spikeWindow;
      this.setWindow := setWindow;
      isSpiking, isSetting, canSpike, canSet := false, false, false, true;
      jumpingTime, spikeTimer, setTimer := 0.0, 0.0, 0.0;
      reportedTouches := [];
    }

    /** Clears the spike and set state and restores the set ability. */
    method Initialize()
      modifies this
      ensures Valid()
      ensures State() == old(State()).(isSpiking := false, spikeTimer := 0.0, canSpike := false,
                                       isSetting := false, setTimer := 0.0, canSet := true)
      ensures role == old(role) && reportedTouches == old(reportedTouches)
    {
      isSpiking := false;
      spikeTimer := 0.0;
      canSpike := false;
      isSetting := false;
      setTimer := 0.0;
      canSet := true;
    }

    /** Starts a jump; a spike jump also enables and enters spiking. */
    method Jump(isSpikeJump: bool)
      modifies this
      ensures State() == Jumped(old(State()), isSpikeJump)
      ensures role == old(role) && reportedTouches == old(reportedTouches)
    {
      jumpingTime := if isSpiking then 0.25 else 0.2;
      canSpike := isSpikeJump;
      isSpiking := isSpikeJump;
    }

    /** The flag part of the movement step for the action branches `act`. */
    method MoveAgent(act: seq<int>, grounded: bool)
      requires |act| >= 5
      modifies this
      ensures State() == MoveFlags(old(State()), grounded, act[3], act[4], spikeWindow, setWindow)
      ensures old(Valid()) ==> Valid()
      ensures role == old(role) && reportedTouches == old(reportedTouches)
    {
      var jumpAction := act[3];
      var setAction := act[4];
      var jumpType := act[3];
      if (jumpType == 1 || jumpType == 2) && jumpingTime <= 0.0 && grounded {
        var isSpikeJump := jumpType == 2;
        Jump(isSpikeJump);
      }
      if !grounded && jumpAction == 2 && canSpike {
        isSpiking := true;
        spikeTimer := spikeWindow;
        canSpike := false;
      } else if grounded && setAction == 1 && canSet {
        isSetting := true;
        setTimer := setWindow;
        canSet := false;
      }
      if !grounded || jumpAction == 1 || jumpAction == 2 || isSpiking {
        isSetting := false;
        setTimer := 0.0;
      }
      if grounded && !isSetting && !isSpiking {
        canSet := true;
      }
    }

    /** One decision step: timers run down by `dt`, then the movement step. */
    method OnActionReceived(act: seq<int>, grounded: bool, dt: real)
      requires |act| >= 5 && Valid()
      modifies this
      ensures Valid()
      ensures State() == ActionStep(old(State()), grounded, dt, act, spikeWindow, setWindow)
      ensures role == old(role) && reportedTouches == old(reportedTouches)
    {
      if grounded {
        isSpiking := false;
      }
      if jumpingTime > 0.0 {
        jumpingTime := jumpingTime - dt;
      }
      if isSpiking && spikeTimer > 0.0 {
        spikeTimer := spikeTimer - dt;
        if spikeTimer <= 0.0 {
          isSpiking := false;
        }
        spikeTimer := 0.0;
      }
      if isSetting && setTimer > 0.0 {
        setTimer := setTimer - dt;
        if setTimer <= 0.0 || !grounded {
          isSetting := false;
          setTimer := 0.0;
        }
      }
      if grounded && !isSetting && !isSpiking {
        canSet := true;
      }
      assert State() == TickTimers(old(State()), grounded, dt);
      MoveAgent(act, grounded);
    }

    /** A ball contact: reports the touch type as it was before the contact,
        then uses up a spike or set in progress. */
    method OnBallContact()
      modifies this
      ensures reportedTouches == old(reportedTouches) + [DetermineTouchType(old(State()))]
      ensures State() == AfterBallContact(old(State()))
      ensures old(Valid()) ==> Valid()
      ensures role == old(role)
    {
      reportedTouches := reportedTouches + [DetermineTouchType(State())];
      if isSpiking {
        isSpiking := false;
        spikeTimer := 0.0;
      }
      if isSetting {
        isSetting := false;
        setTimer := 0.0;
      }
    }
  }

  // ---------------------------------------------------------------------
  // Keyboard heuristic
  // ---------------------------------------------------------------------

  /** The keys the heuristic reads, each pressed or not. */
  datatype Keys = Keys(
    d: bool, a: bool, w: bool, up: bool, s: bool, down: bool,
    right: bool, left: bool, space: bool, p: bool, b: bool)

  /** The value the heuristic writes into branch `i` (0 to 4) for `k`. */
  function BranchValue(k: Keys, i: nat): int
  {
    if i == 0 then (if k.w || k.up then 1 else if k.s || k.down then 2 else 0)
    else if i == 1 then (if k.d then 2 else if k.a then 1 else 0)
    else if i == 2 then (if k.right then 2 else if k.left then 1 else 0)
    else if i == 3 then (if k.p then 2 else if k.space then 1 else 0)
    else if i == 4 then (if k.b then 1 else 0)
    else 0
  }

  /** The `n` discrete actions the heuristic produces. */
  function HeuristicActions(keyboard: Option<Keys>, n: nat): (r: seq<int>)
    requires keyboard.Some? ==> n >= 5
    ensures |r| == n
    ensures forall i :: 0 <= i < n ==> 0 <= r[i] <= 2
    ensures forall i :: 0 <= i < n && (keyboard.None? || i >= 5) ==> r[i] == 0
    ensures keyboard.Some? ==>
      var k := keyboard.value;
      // branch 0: forward (w or up) beats back (s or down)
      && (r[0] == 1 <==> k.w || k.up) && (r[0] == 2 <==> !(k.w || k.up) && (k.s || k.down))
      // branch 1: d beats a
      && (r[1] == 2 <==> k.d) && (r[1] == 1 <==> !k.d && k.a)
      // branch 2: right beats left
      && (r[2] == 2 <==> k.right) && (r[2] == 1 <==> !k.right && k.left)
      // branch 3: p (spike) overrides space (jump)
      && (r[3] == 2 <==> k.p) && (r[3] == 1 <==> !k.p && k.space)
      // branch 4: b (set)
      && (r[4] == 1 <==> k.b) && r[4] != 2
  {
    seq(n, i requires 0 <= i < n => if keyboard.None? then 0 else BranchValue(keyboard.value, i))
  }

  /** Fills the action buffer from the keyboard: every branch is zeroed
      first, and without a keyboard nothing else happens. */
  method Heuristic(da: array<int>, keyboard: Option<Keys>)
    requires keyboard.Some? ==> da.Length >= 5
    modifies da
    ensures da[..] == HeuristicActions(keyboard, da.Length)
  {
    var i := 0;
    while i < da.Length
      invariant 0 <= i <= da.Length
      invariant forall j :: 0 <= j < i ==> da[j] == 0
    {
      da[i] := 0;
      i := i + 1;
    }
    if keyboard.None? {
      assert da[..] == HeuristicActions(keyboard, da.Length);
      return;
    }
    var k := keyboard.value;
    if k.d {
      da[1] := 2;
    } else if k.a {
      da[1] := 1;
    }
    assert forall j :: 0 <= j < da.Length ==> da[j] == (if j == 1 then BranchValue(k, j) else 0);
    if k.w || k.up {
      da[0] := 1;
    } else if k.s || k.down {
      da[0] := 2;
    }
    assert forall j :: 0 <= j < da.Length ==> da[j] == (if j <= 1 then BranchValue(k, j) else 0);
    if k.right {
      da[2] := 2;
    } else if k.left {
      da[2] := 1;
    }
    assert forall j :: 0 <= j < da.Length ==> da[j] == (if j <= 2 then BranchValue(k, j) else 0);
    if k.space {
      da[3] := 1;
    }
    if k.p {
      da[3] := 2;
    }
    assert forall j :: 0 <= j < da.Length ==> da[j] == (if j <= 3 then BranchValue(k, j) else 0);
    if k.b {
      da[4] := 1;
    }
    assert forall j :: 0 <= j < da.Length ==> da[j] == BranchValue(k, j);
    assert da[..] == HeuristicActions(keyboard, da.Length);
  }
}

=== FILE: agent_observations.dfy ===
/** The layout of the agent's observation vector. Directions, distances and
    velocities are physics and arrive already computed; what is modelled is
    which values are emitted, in which order, how many per slot, and the
    discrete encodings (role one-hot, last-touch code, action flags). */
module AgentObservations {
  import opened Common

  const MaxTeammates: nat := 5
  const MaxOpponents: nat := 6
  const MaxAgents: nat := MaxTeammates + MaxOpponents + 1

  /** Another agent as seen by this one: its identity, its direction and
      normalised distance from this agent, its scaled velocity and its role. */
  datatype Peer = Peer(id: nat, direction: Vec3, distance: real, velocity: Vec3, role: Role)

  /** The agent's own view of itself and the ball (11 values). */
  datatype SelfView = SelfView(yaw: real, ballDirection: Vec3, ballDistance: real,
                               velocity: Vec3, ballVelocity: Vec3)

  /** A horizontal direction and normalised distance to a landmark. */
  datatype Bearing = Bearing(direction: Vec3, distance: real)

  /** Bearings of the net and the two goals. */
  datatype Court = Court(net: Bearing, blueGoal: Bearing, redGoal: Bearing)

  /** The spike and set flags of an entry of the environment's agent list. */
  datatype ActionView = ActionView(isSpiking: bool, isSetting: bool)

  function Components(v: Vec3): seq<real>
  {
    [v.x, v.y, v.z]
  }

  function Indicator(b: bool): real
  {
    if b then 1.0 else 0.0
  }

  function Clamp01(x: real): (r: real)
    ensures 0.0 <= r <= 1.0
    ensures 0.0 <= x <= 1.0 ==> r == x
    ensures x < 0.0 ==> r == 0.0
    ensures x > 1.0 ==> r == 1.0
  {
    if x < 0.0 then 0.0 else if x > 1.0 then 1.0 else x
  }

  /** The role as four indicators in the order Passer, Hitter, Setter,
      Generic: exactly one of them is 1. */
  function RoleOneHot(r: Role): (v: seq<real>)
    ensures |v| == 4
    ensures forall i :: 0 <= i < 4 ==> v[i] == 0.0 || v[i] == 1.0
    ensures v[0] + v[1] + v[2] + v[3] == 1.0
    ensures (v[0] == 1.0 <==> r == Passer) && (v[1] == 1.0 <==> r == Hitter)
    ensures (v[2] == 1.0 <==> r == Setter) && (v[3] == 1.0 <==> r == Generic)
  {
    [Indicator(r == Passer), Indicator(r == Hitter), Indicator(r == Setter), Indicator(r == Generic)]
  }

  /** The entry in slot `i`, or nothing past the end of the list. */
  function SlotAt<T>(list: seq<Option<T>>, i: nat): Option<T>
  {
    if i < |list| then list[i] else None
  }

  function Zeros(n: nat): (z: seq<real>)
    ensures |z| == n && forall i :: 0 <= i < n ==> z[i] == 0.0
  {
    seq(n, _ => 0.0)
  }

  /** The values of one teammate slot. */
  function TeammateSlot(a: Option<Peer>): seq<real>
  {
    match a
    case Some(p) => Components(p.direction) + [p.distance] + Components(p.velocity) + RoleOneHot(p.role)
    case None => Components(Zero) + Zeros(8)
  }

  /** The values of one opponent slot: a filled slot has no distance value,
      a padded slot has one. */
  function OpponentSlot(a: Option<Peer>): seq<real>
  {
    match a
    case Some(p) => Components(p.direction) + Components(p.velocity) + RoleOneHot(p.role)
    case None => Components(Zero) + Zeros(8)
  }

  /** Every teammate slot, filled or padded, is 11 values, ending with the
      role one-hot when filled and with zeros when padded. */
  lemma TeammateSlotShape(a: Option<Peer>)
    ensures |TeammateSlot(a)| == 11
    ensures a.Some? ==> TeammateSlot(a)[7..] == RoleOneHot(a.value.role)
    ensures a.None? ==> TeammateSlot(a) == Zeros(11)
  {
  }

  /** An opponent slot is 10 values when filled and 11 when padded. */
  lemma OpponentSlotShape(a: Option<Peer>)
    ensures |OpponentSlot(a)| == (if a.Some? then 10 else 11)
    ensures a.Some? ==> OpponentSlot(a)[6..] == RoleOneHot(a.value.role)
    ensures a.None? ==> OpponentSlot(a) == Zeros(11)
  {
  }

  /** The first `n` teammate slots. */
  function TeammateSlots(mates: seq<Option<Peer>>, n: nat): seq<real>
  {
    if n == 0 then [] else TeammateSlots(mates, n - 1) + TeammateSlot(SlotAt(mates, n - 1))
  }

  /** The first `n` opponent slots. */
  function OpponentSlots(opponents: seq<Option<Peer>>, n: nat): seq<real>
  {
    if n == 0 then [] else OpponentSlots(opponents, n - 1) + OpponentSlot(SlotAt(opponents, n - 1))
  }

  /** The spike and set flags of the first `n` entries of the agent list,
      two values per entry, zeros for missing entries. */
  function ActionSlots(agents: seq<Option<ActionView>>, n: nat): seq<real>
  {
    if n == 0 then []
    else
      ActionSlots(agents, n - 1) +
      match SlotAt(agents, n - 1)
      case Some(v) => [Indicator(v.isSpiking), Indicator(v.isSetting)]
      case None => [0.0, 0.0]
  }

  /** The number of filled slots among the first `n`. */
  function FilledSlots<T>(list: seq<Option<T>>, n: nat): (c: nat)
    ensures c <= n
  {
    if n == 0 then 0 else FilledSlots(list, n - 1) + (if SlotAt(list, n - 1).Some? then 1 else 0)
  }

  /** The teammate section has a fixed width of 11 per slot. */
  lemma {:induction false} TeammateSectionLength(mates: seq<Option<Peer>>, n: nat)
    ensures |TeammateSlots(mates, n)| == 11 * n
  {
    if n > 0 {
      TeammateSectionLength(mates, n - 1);
      TeammateSlotShape(SlotAt(mates, n - 1));
    }
  }

  /** The opponent section loses one value for every filled slot. */
  lemma {:induction false} OpponentSectionLength(opponents: seq<Option<Peer>>, n: nat)
    ensures |OpponentSlots(opponents, n)| == 11 * n - FilledSlots(opponents, n)
  {
    if n > 0 {
      OpponentSectionLength(opponents, n - 1);
      OpponentSlotShape(SlotAt(opponents, n - 1));
    }
  }

  lemma {:induction false} ActionSectionLength(agents: seq<Option<ActionView>>, n: nat)
    ensures |ActionSlots(agents, n)| == 2 * n
  {
    if n > 0 {
      ActionSectionLength(agents, n - 1);
    }
  }

  /** Whether the teammate list contains `agent`; a missing last hitter
      matches an empty entry, as a list lookup of a null reference does. */
  predicate ContainsAgent(mates: seq<Option<Peer>>, agent: Option<nat>)
  {
    exists j :: 0 <= j < |mates| && (match mates[j] case None => agent.None? case Some(p) => agent == Some(p.id))
  }

  /** The last-touch code: 1 if this agent touched last, -1 if a teammate
      did, 0 otherwise. */
  function LastTouchCode(lastHitter: Option<nat>, selfId: nat, mates: seq<Option<Peer>>): (c: real)
    ensures c == 1.0 <==> lastHitter == Some(selfId)
    ensures c == -1.0 <==> lastHitter != Some(selfId) && ContainsAgent(mates, lastHitter)
    ensures c == 0.0 <==> lastHitter != Some(selfId) && !ContainsAgent(mates, lastHitter)
  {
    if lastHitter == Some(selfId) then 1.0 else if ContainsAgent(mates, lastHitter) then -1.0 else 0.0
  }

  function SelfSection(s: SelfView): seq<real>
  {
    [s.yaw] + Components(s.ballDirection) + [s.ballDistance] + Components(s.velocity) + Components(s.ballVelocity)
  }

  /** Net, own goal and opposing goal, each as a direction and a distance. */
  function CourtSection(c: Court, team: Team): seq<real>
  {
    var own := if team == Blue then c.blueGoal else c.redGoal;
    var opposing := if team == Blue then c.redGoal else c.blueGoal;
    Components(c.net.direction) + [c.net.distance]
    + Components(own.direction) + [own.distance]
    + Components(opposing.direction) + [opposing.distance]
  }

  /** The whole observation vector. */
  function ObservationVector(
    selfView: SelfView, mates: seq<Option<Peer>>, opponents: seq<Option<Peer>>,
    court: Court, team: Team, role: Role, selfId: nat, lastHitter: Option<nat>,
    agents: seq<Option<ActionView>>, touchesUsed: real, grounded: bool): seq<real>
  {
    SelfSection(selfView)
    + TeammateSlots(mates, MaxTeammates)
    + OpponentSlots(opponents, MaxOpponents)
    + CourtSection(court, team)
    + RoleOneHot(role)
    + [LastTouchCode(lastHitter, selfId, mates)]
    + ActionSlots(agents, MaxAgents)
    + [|mates| as real / MaxTeammates as real, |opponents| as real / MaxOpponents as real]
    + [Clamp01(touchesUsed / 3.0), Indicator(grounded)]
  }

  /** Appends one teammate slot: direction, distance, velocity and role
      one-hot when filled, eleven zeros when padded. */
  method AppendTeammateSlot(before: seq<real>, a: Option<Peer>) returns (obs: seq<real>)
    ensures obs == before + TeammateSlot(a)
  {
    obs := before;
    if a.Some? {
      var p := a.value;
      obs := obs + Components(p.direction);
      obs := obs + [p.distance];
      obs := obs + Components(p.velocity);
      obs := obs + RoleOneHot(p.role);
    } else {
      obs := obs + Components(Zero);
      obs := obs + [0.0, 0.0, 0.0, 0.0, 0.0, 0.0, 0.0, 0.0];
    }
  }

  /** Appends one opponent slot: direction, velocity and role one-hot when
      filled, eleven zeros when padded. */
  method AppendOpponentSlot(before: seq<real>, a: Option<Peer>) returns (obs: seq<real>)
    ensures obs == before + OpponentSlot(a)
  {
    obs := before;
    if a.Some? {
      var p := a.value;
      obs := obs + Components(p.direction);
      obs := obs + Components(p.velocity);
      obs := obs + RoleOneHot(p.role);
    } else {
      obs := obs + Components(Zero);
      obs := obs + [0.0, 0.0, 0.0, 0.0, 0.0, 0.0, 0.0, 0.0];
    }
  }

  /** Appends the first `n` teammate slots. */
  method AppendTeammateSlots(before: seq<real>, mates: seq<Option<Peer>>, n: nat) returns (obs: seq<real>)
    ensures obs == before + TeammateSlots(mates, n)
  {
    var slots := [];
    var i := 0;
    while i < n
      invariant 0 <= i <= n
      invariant slots == TeammateSlots(mates, i)
    {
      slots := AppendTeammateSlot(slots, SlotAt(mates, i));
      i := i + 1;
    }
    obs := before + slots;
  }

  /** Appends the first `n` opponent slots. */
  method AppendOpponentSlots(before: seq<real>, opponents: seq<Option<Peer>>, n: nat) returns (obs: seq<real>)
    ensures obs == before + OpponentSlots(opponents, n)
  {
    var slots := [];
    var i := 0;
    while i < n
      invariant 0 <= i <= n
      invariant slots == OpponentSlots(opponents, i)
    {
      slots := AppendOpponentSlot(slots, SlotAt(opponents, i));
      i := i + 1;
    }
    obs := before + slots;
  }

  /** Appends the spike and set flags of the first `n` agent-list slots. */
  method AppendActionSlots(before: seq<real>, agents: seq<Option<ActionView>>, n: nat) returns (obs: seq<real>)
    ensures obs == before + ActionSlots(agents, n)
  {
    obs := before;
    var i := 0;
    while i < n
      invariant 0 <= i <= n
      invariant obs == before + ActionSlots(agents, i)
    {
      var a := if i < |agents| then agents[i] else None;
      if a.Some? {
        obs := obs + [Indicator(a.value.isSpiking), Indicator(a.value.isSetting)];
      } else {
        obs := obs + [0.0, 0.0];
      }
      i := i + 1;
    }
  }

  /** Starts the vector with the agent's yaw and its view of the ball. */
  method AppendSelf(selfView: SelfView) returns (obs: seq<real>)
    ensures obs == SelfSection(selfView)
  {
    obs := [selfView.yaw];
    obs := obs + Components(selfView.ballDirection);
    obs := obs + [selfView.ballDistance];
    obs := obs + Components(selfView.velocity);
    obs := obs + Components(selfView.ballVelocity);
  }

  /** Appends the net, then the agent's own goal, then the opposing goal. */
  method AppendCourt(before: seq<real>, court: Court, team: Team) returns (obs: seq<real>)
    ensures obs == before + CourtSection(court, team)
  {
    var own := if team == Blue then court.blueGoal else court.redGoal;
    var opposing := if team == Blue then court.redGoal else court.blueGoal;
    obs := before + Components(court.net.direction) + [court.net.distance];
    obs := obs + Components(own.direction) + [own.distance];
    obs := obs + Components(opposing.direction) + [opposing.distance];
  }

  /** The vector is 177 values less one per filled opponent slot, so its
      length depends on the number of opponents. */
  lemma ObservationLength(
    selfView: SelfView, mates: seq<Option<Peer>>, opponents: seq<Option<Peer>>,
    court: Court, team: Team, role: Role, selfId: nat, lastHitter: Option<nat>,
    agents: seq<Option<ActionView>>, touchesUsed: real, grounded: bool)
    ensures |ObservationVector(selfView, mates, opponents, court, team, role, selfId,
                               lastHitter, agents, touchesUsed, grounded)|
            == 177 - FilledSlots(opponents, MaxOpponents)
  {
    TeammateSectionLength(mates, MaxTeammates);
    OpponentSectionLength(opponents, MaxOpponents);
    ActionSectionLength(agents, MaxAgents);
  }

  /** Appends the observations in order: self and ball, five teammate slots,
      six opponent slots, net and goals, own role, last touch, the action
      flags of twelve agent-list entries, the team sizes, the touches used
      and the grounded flag. */
  method CollectObservations(
    selfView: SelfView, mates: seq<Option<Peer>>, opponents: seq<Option<Peer>>,
    court: Court, team: Team, role: Role, selfId: nat, lastHitter: Option<nat>,
    agents: seq<Option<ActionView>>, touchesUsed: real, grounded: bool)
    returns (obs: seq<real>)
    ensures obs == ObservationVector(selfView, mates, opponents, court, team, role, selfId,
                                     lastHitter, agents, touchesUsed, grounded)
    ensures |obs| == 177 - FilledSlots(opponents, MaxOpponents)
  {
    obs := AppendSelf(selfView);
    obs := AppendTeammateSlots(obs, mates, MaxTeammates);
    obs := AppendOpponentSlots(obs, opponents, MaxOpponents);
    obs := AppendCourt(obs, court, team);
    obs := obs + RoleOneHot(role);
    obs := obs + [LastTouchCode(lastHitter, selfId, mates)];
    obs := AppendActionSlots(obs, agents, MaxAgents);
    obs := obs + [|mates| as real / MaxTeammates as real, |opponents| as real / MaxOpponents as real];
    obs := obs + [Clamp01(touchesUsed / 3.0), Indicator(grounded)];

    ObservationLength(selfView, mates, opponents, court, team, role, selfId,
                      lastHitter, agents, touchesUsed, grounded);
  }
}

=== FILE: ball_controller.dfy ===
/** The ball controller: per-side touch counting, the last hitting team,
    the mini-serve flag, and the rulings that turn a floor or out-zone
    contact into a point. */
module BallController {
  import opened Common

  /** The kind of hit the controller is asked to apply. */
  datatype HitType = Pass | Set | Spike | Block

  /** The tags of the objects the ball may touch that the controller reads;
      `Untagged` is any other object. */
  datatype ContactTag = FloorBlue | FloorRed | Net | OutZone | Untagged

  /** Linear velocity of the ball. `Launched(d, s)` moves at speed `s` along
      the normalised direction of `d`; normalisation itself is physics and
      is not modelled. */
  datatype Motion = Still | Launched(direction: Vec3, speed: real)

  /** The spot a reset ball is placed at, half a unit above the centre. */
  const ServeSpot: Vec3 := Vec3(0.0, 0.5, 0.0)

  /** Unit vectors along +z and -z. */
  const Forward: Vec3 := Vec3(0.0, 0.0, 1.0)
  const Back: Vec3 := Vec3(0.0, 0.0, -1.0)

  /** The direction a mini-serve pushes the ball: +z for Blue, -z otherwise. */
  function ServeDirection(servingTeam: Team): (d: Vec3)
    ensures d.x == 0.0 && d.y == 0.0
    ensures d.z == 1.0 <==> servingTeam == Blue
    ensures d.z == -1.0 <==> servingTeam != Blue
  {
    if servingTeam == Blue then Forward else Back
  }

  /** The controller's rally bookkeeping, apart from the ball's physics. */
  datatype Bookkeeping = Bookkeeping(touchesThisSide: int, lastHitterTeam: Team, inMiniServe: bool)

  /** The bookkeeping after one hit. */
  function AfterHit(b: Bookkeeping, hitType: HitType, hittingTeam: Team): (r: Bookkeeping)
    ensures r.lastHitterTeam == hittingTeam
    ensures r.inMiniServe == b.inMiniServe
    ensures hitType == Block ==> r.touchesThisSide == b.touchesThisSide
    ensures hitType != Block ==> r.touchesThisSide == b.touchesThisSide + 1
  {
    if hitType == Block then b.(lastHitterTeam := hittingTeam)
    else b.(lastHitterTeam := hittingTeam, touchesThisSide := b.touchesThisSide + 1)
  }

  /** One call of HitBall: the hit kind and the hitting team. */
  datatype Hit = Hit(hitType: HitType, team: Team)

  /** The bookkeeping after a run of hits, applied first to last. */
  function AfterHits(b: Bookkeeping, hits: seq<Hit>): Bookkeeping
    decreases |hits|
  {
    if hits == [] then b else AfterHits(AfterHit(b, hits[0].hitType, hits[0].team), hits[1..])
  }

  /** The number of hits in `hits` that count as a touch (every kind but
      Block), counted from the last hit backwards. */
  function CountedTouches(hits: seq<Hit>): nat
    decreases |hits|
  {
    if hits == [] then 0
    else CountedTouches(hits[..|hits| - 1]) + (if hits[|hits| - 1].hitType == Block then 0 else 1)
  }

  /** Applying one more hit at the end of a run is applying it to the run's result. */
  lemma {:induction false} AfterHitsSnoc(b: Bookkeeping, hits: seq<Hit>, h: Hit)
    ensures AfterHits(b, hits + [h]) == AfterHit(AfterHits(b, hits), h.hitType, h.team)
    decreases |hits|
  {
    if hits != [] {
      AfterHitsSnoc(AfterHit(b, hits[0].hitType, hits[0].team), hits[1..], h);
      assert (hits + [h])[1..] == hits[1..] + [h];
    }
  }

  /** A run of hits adds exactly its non-Block hits to the counter, leaves the
      mini-serve flag alone and leaves the last hit's team as last hitter. */
  lemma {:induction false} HitsCountTouches(b: Bookkeeping, hits: seq<Hit>)
    ensures AfterHits(b, hits).touchesThisSide == b.touchesThisSide + CountedTouches(hits)
    ensures AfterHits(b, hits).inMiniServe == b.inMiniServe
    ensures hits != [] ==> AfterHits(b, hits).lastHitterTeam == hits[|hits| - 1].team
    decreases |hits|
  {
    if hits != [] {
      var init, h := hits[..|hits| - 1], hits[|hits| - 1];
      HitsCountTouches(b, init);
      AfterHitsSnoc(b, init, h);
      assert init + [h] == hits;
    }
  }

  /** HitBall never rules a fault and never caps the counter: from any
      non-negative count, four passes leave it above `maxTouchesPerSide` (3). */
  lemma NoTouchLimit(b: Bookkeeping, team: Team)
    requires b.touchesThisSide >= 0
    ensures AfterHits(b, seq(4, _ => Hit(Pass, team))).touchesThisSide > 3
  {
    var hits := seq(4, _ => Hit(Pass, team));
    HitsCountTouches(b, hits);
    assert hits[..3][..2][..1] == [hits[0]] && hits[..3][..2][..1][..0] == [];
    assert CountedTouches(hits[..3][..2][..1]) == 1;
    assert CountedTouches(hits[..3][..2]) == 2;
    assert CountedTouches(hits[..3]) == 3;
  }

  /** The point a ball contact awards, if any. A floor contact gives the point
      to the team whose floor was not hit; an out-zone contact gives it to
      Red when Blue hit last and to Blue otherwise; the net and anything else
      award nothing. */
  function PointWinner(tag: ContactTag, lastHitterTeam: Team): (winner: Option<Team>)
    ensures winner.Some? <==> tag in {FloorBlue, FloorRed, OutZone}
    ensures winner.Some? ==> winner.value != Other
    ensures tag == FloorBlue ==> winner == Some(Red)
    ensures tag == FloorRed ==> winner == Some(Blue)
    ensures tag == OutZone ==> winner.value != lastHitterTeam
    ensures tag == OutZone ==> winner == Some(if lastHitterTeam == Blue then Red else Blue)
  {
    match tag
    case FloorBlue => Some(Red)
    case FloorRed => Some(Blue)
    case OutZone => Some(if lastHitterTeam == Blue then Red else Blue)
    case Net => None
    case Untagged => None
  }

  /** The ball with its rally bookkeeping; forces are tunable constants. */
  class Ball {
    const passForce: real
    const setForce: real
    const spikeForce: real
    const miniServeForce: real
    /** Declared by the controller but never read by it. */
    const maxTouchesPerSide: int := 3

    var lastHitterTeam: Team
    var touchesThisSide: int
    var inMiniServe: bool

    var position: Vec3
    var motion: Motion
    var angularVelocity: Vec3

    constructor (passForce: real, setForce: real, spikeForce: real, miniServeForce: real,
                 lastHitterTeam: Team, position: Vec3)
      ensures this.passForce == passForce && this.setForce == setForce
      ensures this.spikeForce == spikeForce && this.miniServeForce == miniServeForce
      ensures Ledger() == Bookkeeping(0, lastHitterTeam, false)
      ensures this.position == position && motion == Still && angularVelocity == Zero
    {
      this.passForce := passForce;
      this.setForce := setForce;
      this.spikeForce := spikeForce;
      this.miniServeForce := miniServeForce;
      this.lastHitterTeam := lastHitterTeam;
      touchesThisSide := 0;
      inMiniServe := false;
      this.position := position;
      motion := Still;
      angularVelocity := Zero;
    }

    function Ledger(): Bookkeeping
      reads this
    {
      Bookkeeping(touchesThisSide, lastHitterTeam, inMiniServe)
    }

    /** The force of a hit before the power modifier; Block falls through to
        the pass force. */
    function BaseForce(hitType: HitType): real
    {
      match hitType
      case Pass => passForce
      case Set => setForce
      case Spike => spikeForce
      case Block => passForce
    }

    /** Applies a hit: the ball is relaunched along `direction` with the
        chosen force, the hitting team becomes the last hitter, and every
        kind of hit but Block counts a touch. No fault is ever ruled here. */
    method HitBall(direction: Vec3, hitType: HitType, hittingTeam: Team, powerModifier: real)
      modifies this
      ensures Ledger() == AfterHit(old(Ledger()), hitType, hittingTeam)
      ensures motion == Launched(direction, BaseForce(hitType) * powerModifier)
      ensures position == old(position) && angularVelocity == old(angularVelocity)
    {
      var force := BaseForce(hitType);
      force := force * powerModifier;
      motion := Launched(direction, force);
      lastHitterTeam := hittingTeam;
      if hitType != Block {
        touchesThisSide := touchesThisSide + 1;
      }
    }

    /** Puts the ball at the serve spot at rest, zeroes the touch counter,
        enters mini-serve and pushes the ball towards the serving side. */
    method ResetBallMiniServe(servingTeam: Team)
      modifies this
      ensures touchesThisSide == 0 && inMiniServe
      ensures lastHitterTeam == old(lastHitterTeam)
      ensures position == ServeSpot && angularVelocity == Zero
      ensures motion == Launched(ServeDirection(servingTeam), miniServeForce)
    {
      touchesThisSide := 0;
      angularVelocity := Zero;
      position := ServeSpot;
      inMiniServe := true;
      var serveDir := if servingTeam == Blue then Forward else Back;
      motion := Launched(serveDir, miniServeForce);
    }

    /** Zeroes the touch counter and changes nothing else. */
    method ResetTouches()
      modifies this
      ensures Ledger() == old(Ledger()).(touchesThisSide := 0)
      ensures position == old(position) && motion == old(motion)
      ensures angularVelocity == old(angularVelocity)
    {
      touchesThisSide := 0;
    }

    /** Leaves mini-serve and changes nothing else. */
    method EndMiniServe()
      modifies this
      ensures Ledger() == old(Ledger()).(inMiniServe := false)
      ensures position == old(position) && motion == old(motion)
      ensures angularVelocity == old(angularVelocity)
    {
      inMiniServe := false;
    }
  }
}

=== FILE: common.dfy ===
/** Shared vocabulary of the volleyball scripts: teams, touch kinds,
    tactical roles and a plain 3-vector of reals. */
module Common {

  /** The scripts compare a team only against `Blue` (and, in the statistics,
      against `Red`); every other value takes the else-branch. `Other` stands
      for any such value. */
  datatype Team = Blue | Red | Other

  /** The kind of touch an agent reports when it contacts the ball. */
  datatype TouchType = Bump | Set | Spike

  /** Tactical role of an agent; `Generic` is the default. */
  datatype Role = Passer | Setter | Hitter | Generic

  datatype Option<T> = None | Some(value: T)

  /** A position or velocity; floats are modelled as reals. */
  datatype Vec3 = Vec3(x: real, y: real, z: real)

  const Zero: Vec3 := Vec3(0.0, 0.0, 0.0)

  function Add(a: Vec3, b: Vec3): Vec3 {
    Vec3(a.x + b.x, a.y + b.y, a.z + b.z)
  }

  /** A rotation, kept opaque: the model only copies rotations around. */
  datatype Rotation = Rotation(x: real, y: real, z: real, w: real)
}

=== FILE: environment.dfy ===
/** The environment controller: the step watchdog, the point award with its
    time penalty, the scene reset and the registration of agents in the two
    team groups. It composes one ball controller. */
module Environment {
  import opened Common
  import opened BallController

  /** The two multi-agent groups. */
  datatype Group = BlueGroup | RedGroup

  /** What the controller tells the training harness about a group. */
  datatype GroupEvent = GroupReward(group: Group, amount: real) | GroupEpisodeInterrupted(group: Group)

  /** One entry of the agent list: the agent's team, the pose recorded at
      start-up, and its current pose and velocities. */
  datatype PlayerInfo = PlayerInfo(
    team: Team,
    startingPos: Vec3, startingRot: Rotation,
    position: Vec3, rotation: Rotation,
    velocity: Vec3, angularVelocity: Vec3)

  // ---------------------------------------------------------------------
  // The watchdog as a function of the counter
  // ---------------------------------------------------------------------

  /** The counter after one tick, and whether the tick interrupted the episode. */
  datatype TickOutcome = TickOutcome(timer: int, interrupted: bool)

  function Tick(timer: int, maxSteps: int): (o: TickOutcome)
    ensures o.interrupted <==> maxSteps > 0 && timer + 1 >= maxSteps
    ensures o.interrupted ==> o.timer == 0
    ensures !o.interrupted ==> o.timer == timer + 1
  {
    var t := timer + 1;
    if maxSteps > 0 && t >= maxSteps then TickOutcome(0, true) else TickOutcome(t, false)
  }

  /** The counter after `n` ticks. */
  function TimerAfter(timer: int, maxSteps: int, n: nat): int
  {
    if n == 0 then timer else Tick(TimerAfter(timer, maxSteps, n - 1), maxSteps).timer
  }

  /** The number of interruptions during `n` ticks. */
  function InterruptsAfter(timer: int, maxSteps: int, n: nat): nat
  {
    if n == 0 then 0
    else InterruptsAfter(timer, maxSteps, n - 1)
         + (if Tick(TimerAfter(timer, maxSteps, n - 1), maxSteps).interrupted then 1 else 0)
  }

  /** Starting from a scene reset (counter 0) with the watchdog enabled, the
      counter after `n` ticks is `n mod maxSteps`, so it stays below
      `maxSteps`, and the episode has been interrupted `n div maxSteps` times. */
  lemma {:induction false} WatchdogPeriod(maxSteps: int, n: nat)
    requires maxSteps > 0
    ensures TimerAfter(0, maxSteps, n) == n % maxSteps
    ensures InterruptsAfter(0, maxSteps, n) == n / maxSteps
    ensures 0 <= TimerAfter(0, maxSteps, n) < maxSteps
  {
    if n > 0 {
      WatchdogPeriod(maxSteps, n - 1);
      var m := n - 1;
      assert m == maxSteps * (m / maxSteps) + m % maxSteps;
      if m % maxSteps + 1 < maxSteps {
        DivModStep(m, maxSteps, false);
      } else {
        DivModStep(m, maxSteps, true);
      }
    }
  }

  lemma DivModStep(m: nat, d: int, wraps: bool)
    requires d > 0
    requires wraps <==> m % d + 1 == d
    ensures wraps ==> (m + 1) % d == 0 && (m + 1) / d == m / d + 1
    ensures !wraps ==> (m + 1) % d == m % d + 1 && (m + 1) / d == m / d
  {
    var q, r := m / d, m % d;
    assert m == d * q + r && 0 <= r < d;
    if wraps {
      assert m + 1 == d * (q + 1);
      DivModUnique(m + 1, d, q + 1, 0);
    } else {
      DivModUnique(m + 1, d, q, r + 1);
    }
  }

  /** Euclidean division has one quotient and one remainder. */
  lemma DivModUnique(a: int, d: int, q: int, r: int)
    requires d > 0 && 0 <= r < d && a == d * q + r
    ensures a / d == q && a % d == r
  {
    var q', r' := a / d, a % d;
    assert a == d * q' + r' && 0 <= r' < d;
    assert d * (q - q') == r' - r;
    if q - q' >= 1 {
      MulAtLeast(d, q - q');
    } else if q - q' <= -1 {
      MulAtLeast(d, q' - q);
    }
  }

  lemma MulAtLeast(d: int, k: int)
    requires d > 0 && k >= 1
    ensures d * k >= d
  {
    assert d * k == d * (k - 1) + d;
  }

  /** With `maxSteps <= 0` the watchdog is off: the counter only grows and no
      tick interrupts the episode. */
  lemma {:induction false} WatchdogDisabled(timer: int, maxSteps: int, n: nat)
    requires maxSteps <= 0
    ensures TimerAfter(timer, maxSteps, n) == timer + n
    ensures InterruptsAfter(timer, maxSteps, n) == 0
  {
    if n > 0 {
      WatchdogDisabled(timer, maxSteps, n - 1);
    }
  }

  // ---------------------------------------------------------------------
  // Point award and group registration as functions
  // ---------------------------------------------------------------------

  /** The share of the episode already used, as the point award computes it. */
  function StepPenalty(timer: int, maxSteps: int): real
    requires maxSteps != 0
  {
    timer as real / maxSteps as real
  }

  function GroupOf(team: Team): Group
  {
    if team == Blue then BlueGroup else RedGroup
  }

  /** The rewards for one point, in the order they are given: the scoring
      team's group first, then the other group. */
  function PointRewards(scoringTeam: Team, penalty: real): (events: seq<GroupEvent>)
    ensures |events| == 2
    ensures events[0] == GroupReward(GroupOf(scoringTeam), 1.0 - penalty)
    ensures events[1] == GroupReward(if scoringTeam == Blue then RedGroup else BlueGroup, -1.0)
    ensures events[0].group != events[1].group
  {
    if scoringTeam == Blue then [GroupReward(BlueGroup, 1.0 - penalty), GroupReward(RedGroup, -1.0)]
    else [GroupReward(RedGroup, 1.0 - penalty), GroupReward(BlueGroup, -1.0)]
  }

  /** With the watchdog enabled and its counter in range, the scoring group
      gets a reward in (0, 1] and the other group exactly -1. */
  lemma ScorerRewardInRange(scoringTeam: Team, timer: int, maxSteps: int)
    requires maxSteps > 0 && 0 <= timer < maxSteps
    ensures 0.0 < PointRewards(scoringTeam, StepPenalty(timer, maxSteps))[0].amount <= 1.0
    ensures PointRewards(scoringTeam, StepPenalty(timer, maxSteps))[1].amount == -1.0
  {
    var p := StepPenalty(timer, maxSteps);
    assert p * maxSteps as real == timer as real;
    assert 0.0 <= p < 1.0;
  }

  /** The teams of an agent list, in list order. */
  function Teams(agents: seq<PlayerInfo>): (teams: seq<Team>)
    ensures |teams| == |agents|
    ensures forall i :: 0 <= i < |agents| ==> teams[i] == agents[i].team
  {
    seq(|agents|, i requires 0 <= i < |agents| => agents[i].team)
  }

  /** The list positions registered in `group`, in list order. */
  function Members(teams: seq<Team>, group: Group): seq<nat>
    decreases |teams|
  {
    if teams == [] then []
    else
      var last := |teams| - 1;
      Members(teams[..last], group) + (if GroupOf(teams[last]) == group then [last] else [])
  }

  /** Every agent is in exactly one group: the Blue group if its team is
      Blue, the Red group otherwise; nothing else is in either group. */
  lemma {:induction false} MembersPartition(teams: seq<Team>, i: int)
    ensures i in Members(teams, BlueGroup) <==> 0 <= i < |teams| && teams[i] == Blue
    ensures i in Members(teams, RedGroup) <==> 0 <= i < |teams| && teams[i] != Blue
    decreases |teams|
  {
    if teams != [] {
      var last := |teams| - 1;
      MembersPartition(teams[..last], i);
    }
  }

  /** The controller of one court. */
  class Controller {
    /** Steps before the watchdog resets; zero or less disables it. */
    const maxEnvironmentSteps: int
    const ball: Ball

    var agents: seq<PlayerInfo>
    var blueGroup: seq<nat>
    var redGroup: seq<nat>
    var resetTimer: int
    /** What has been reported to the training harness, oldest first. */
    var events: seq<GroupEvent>

    /** The counter is never negative and, with the watchdog enabled, is
        always below the step limit. */
    ghost predicate Valid()
      reads this
    {
      0 <= resetTimer && (maxEnvironmentSteps > 0 ==> resetTimer < maxEnvironmentSteps)
    }

    constructor (maxEnvironmentSteps: int, ball: Ball, agents: seq<PlayerInfo>)
      ensures Valid()
      ensures this.maxEnvironmentSteps == maxEnvironmentSteps && this.ball == ball
      ensures this.agents == agents && blueGroup == [] && redGroup == []
      ensures resetTimer == 0 && events == []
    {
      this.maxEnvironmentSteps := maxEnvironmentSteps;
      this.ball := ball;
      this.agents := agents;
      blueGroup, redGroup := [], [];
      resetTimer := 0;
      events := [];
    }

    /** An agent entry at rest at its starting pose, shifted along x by at
        most 2. */
    ghost predicate NearStart(a: PlayerInfo)
    {
      && a.position.y == a.startingPos.y && a.position.z == a.startingPos.z
      && -2.0 <= a.position.x - a.startingPos.x <= 2.0
      && a.rotation == a.startingRot
      && a.velocity == Zero && a.angularVelocity == Zero
    }

    /** An agent entry after a scene reset: same team and start pose, and
        now near its start at rest. */
    ghost predicate Respawned(before: PlayerInfo, after: PlayerInfo)
    {
      && after.team == before.team
      && after.startingPos == before.startingPos && after.startingRot == before.startingRot
      && NearStart(after)
    }

    /** Records each agent's starting pose, registers every agent in its
        team's group, then resets the scene. */
    method Start()
      modifies this, ball
      ensures Valid()
      ensures blueGroup == Members(Teams(old(agents)), BlueGroup)
      ensures redGroup == Members(Teams(old(agents)), RedGroup)
      ensures |agents| == |old(agents)|
      ensures forall i :: 0 <= i < |agents| ==>
        agents[i].startingPos == old(agents)[i].position && agents[i].startingRot == old(agents)[i].rotation
      ensures forall i :: 0 <= i < |agents| ==> agents[i].team == old(agents)[i].team && NearStart(agents[i])
      ensures resetTimer == 0 && events == old(events)
      ensures ball.position == ServeSpot && ball.motion == Still && ball.angularVelocity == Zero
      ensures ball.Ledger() == old(ball.Ledger())
    {
      ghost var teams := Teams(agents);
      blueGroup, redGroup := [], [];
      var i := 0;
      while i < |agents|
        invariant 0 <= i <= |agents| == |teams|
        invariant Teams(agents) == teams
        invariant forall j :: 0 <= j < |agents| ==> agents[j].position == old(agents)[j].position
        invariant forall j :: 0 <= j < |agents| ==> agents[j].rotation == old(agents)[j].rotation
        invariant forall j :: 0 <= j < i ==>
          agents[j].startingPos == old(agents)[j].position && agents[j].startingRot == old(agents)[j].rotation
        invariant events == old(events) && ball.Ledger() == old(ball.Ledger())
        invariant blueGroup == Members(teams[..i], BlueGroup)
        invariant redGroup == Members(teams[..i], RedGroup)
      {
        var item := agents[i];
        agents := agents[i := item.(startingPos := item.position, startingRot := item.rotation)];
        if item.team == Blue {
          blueGroup := blueGroup + [i];
        } else {
          redGroup := redGroup + [i];
        }
        assert teams[..i + 1][..i] == teams[..i];
        i := i + 1;
      }
      assert teams[..i] == teams;
      ghost var recorded := agents;
      ResetScene();
      assert forall j :: 0 <= j < |agents| ==> agents[j].startingPos == recorded[j].startingPos;
    }

    /** One physics step: advances the counter and, when the watchdog is
        enabled and the counter reaches the limit, interrupts both groups and
        resets the scene. */
    method FixedUpdate()
      requires Valid()
      modifies this, ball
      ensures Valid()
      ensures resetTimer == Tick(old(resetTimer), maxEnvironmentSteps).timer
      ensures blueGroup == old(blueGroup) && redGroup == old(redGroup)
      ensures ball.Ledger() == old(ball.Ledger())
      ensures |agents| == |old(agents)|
      ensures if Tick(old(resetTimer), maxEnvironmentSteps).interrupted then
          && events == old(events) + [GroupEpisodeInterrupted(BlueGroup), GroupEpisodeInterrupted(RedGroup)]
          && (forall i :: 0 <= i < |agents| ==> Respawned(old(agents)[i], agents[i]))
          && ball.position == ServeSpot && ball.motion == Still && ball.angularVelocity == Zero
        else
          && events == old(events) && agents == old(agents)
          && ball.position == old(ball.position) && ball.motion == old(ball.motion)
          && ball.angularVelocity == old(ball.angularVelocity)
    {
      resetTimer := resetTimer + 1;
      if maxEnvironmentSteps > 0 && resetTimer >= maxEnvironmentSteps {
        events := events + [GroupEpisodeInterrupted(BlueGroup)];
        events := events + [GroupEpisodeInterrupted(RedGroup)];
        ResetScene();
      }
    }

    /** Awards a point: the scoring group gets `1 - timer/max`, the other
        group -1, and the ball is re-served towards the scoring team. The
        counter is not reset. A non-Blue scoring team is treated as Red. */
    method PointScored(scoringTeam: Team)
      requires maxEnvironmentSteps != 0
      modifies this, ball
      ensures events == old(events) + PointRewards(scoringTeam, StepPenalty(old(resetTimer), maxEnvironmentSteps))
      ensures resetTimer == old(resetTimer) && agents == old(agents)
      ensures blueGroup == old(blueGroup) && redGroup == old(redGroup)
      ensures ball.touchesThisSide == 0 && ball.inMiniServe
      ensures ball.lastHitterTeam == old(ball.lastHitterTeam)
      ensures ball.position == ServeSpot && ball.angularVelocity == Zero
      ensures ball.motion == Launched(ServeDirection(scoringTeam), ball.miniServeForce)
    {
      var stepPenalty := resetTimer as real / maxEnvironmentSteps as real;
      if scoringTeam == Blue {
        events := events + [GroupReward(BlueGroup, 1.0 - stepPenalty)];
        events := events + [GroupReward(RedGroup, -1.0)];
      } else {
        events := events + [GroupReward(RedGroup, 1.0 - stepPenalty)];
        events := events + [GroupReward(BlueGroup, -1.0)];
      }
      ball.ResetTouches();
      ball.ResetBallMiniServe(scoringTeam);
    }

    /** What the ball does when it collides with a tagged object: a floor or
        out-zone contact awards the point and re-serves towards the scorer;
        the net and anything else change nothing. */
    method OnBallCollisionEnter(tag: ContactTag)
      requires maxEnvironmentSteps != 0 || PointWinner(tag, ball.lastHitterTeam).None?
      modifies this, ball
      ensures resetTimer == old(resetTimer) && agents == old(agents)
      ensures blueGroup == old(blueGroup) && redGroup == old(redGroup)
      ensures ball.lastHitterTeam == old(ball.lastHitterTeam)
      ensures match PointWinner(tag, old(ball.lastHitterTeam))
        case None =>
          && events == old(events) && ball.Ledger() == old(ball.Ledger())
          && ball.position == old(ball.position) && ball.motion == old(ball.motion)
          && ball.angularVelocity == old(ball.angularVelocity)
        case Some(winner) =>
          && events == old(events) + PointRewards(winner, StepPenalty(old(resetTimer), maxEnvironmentSteps))
          && ball.touchesThisSide == 0 && ball.inMiniServe
          && ball.position == ServeSpot && ball.angularVelocity == Zero
          && ball.motion == Launched(ServeDirection(winner), ball.miniServeForce)
    {
      if tag == FloorBlue {
        PointScored(Red);
        ball.ResetBallMiniServe(Red);
      } else if tag == FloorRed {
        PointScored(Blue);
        ball.ResetBallMiniServe(Blue);
      }
      if tag == OutZone {
        var scoringTeam := if ball.lastHitterTeam == Blue then Red else Blue;
        PointScored(scoringTeam);
        ball.ResetBallMiniServe(scoringTeam);
      }
    }

    /** Resets the counter, respawns every agent near its starting pose at
        rest, and puts the ball at the serve spot at rest. The ball's touch
        counter, last hitter and mini-serve flag are left as they were. */
    method ResetScene()
      modifies this, ball
      ensures resetTimer == 0 && Valid()
      ensures |agents| == |old(agents)|
      ensures forall i :: 0 <= i < |agents| ==> Respawned(old(agents)[i], agents[i])
      ensures events == old(events) && blueGroup == old(blueGroup) && redGroup == old(redGroup)
      ensures ball.position == ServeSpot && ball.motion == Still && ball.angularVelocity == Zero
      ensures ball.Ledger() == old(ball.Ledger())
    {
      resetTimer := 0;
      var i := 0;
      while i < |agents|
        invariant 0 <= i <= |agents| == |old(agents)|
        invariant forall j :: i <= j < |agents| ==> agents[j] == old(agents)[j]
        invariant forall j :: 0 <= j < i ==> Respawned(old(agents)[j], agents[j])
        invariant resetTimer == 0
        invariant events == old(events) && blueGroup == old(blueGroup) && redGroup == old(redGroup)
        invariant ball.Ledger() == old(ball.Ledger())
      {
        var randomOffsetX: real :| -2.0 <= randomOffsetX <= 2.0;
        var item := agents[i];
        var newPos := Add(item.startingPos, Vec3(randomOffsetX, 0.0, 0.0));
        agents := agents[i := item.(position := newPos, rotation := item.startingRot,
                                    velocity := Zero, angularVelocity := Zero)];
        i := i + 1;
      }
      ResetBall();
    }

    /** Puts the ball at the serve spot with no linear or angular velocity. */
    method ResetBall()
      modifies ball
      ensures ball.position == ServeSpot && ball.motion == Still && ball.angularVelocity == Zero
      ensures ball.Ledger() == old(ball.Ledger())
    {
      ball.position := ServeSpot;
      ball.motion := Still;
      ball.angularVelocity := Zero;
    }
  }
}

=== FILE: stats_logger.dfy ===
/** The per-episode statistics: for each of Blue and Red, the mean and the
    largest cumulative reward of its agents and the reward summed by role,
    reported under ten fixed keys. */
module Stats {
  import opened Common

  /** What the logger reads from an agent: its team, its role and its
      cumulative reward. A null entry of the agent list is `None`. */
  datatype AgentRecord = AgentRecord(teamId: Team, role: Role, cumulativeReward: real)

  /** The running figures of one team: sum, maximum, the sums for hitters,
      setters and passers, and the number of agents seen. */
  datatype TeamFigures = TeamFigures(sum: real, max: real, hitter: real, setter: real,
                                     passer: real, count: nat)

  /** One reported statistic. */
  datatype StatRecord = StatRecord(key: string, value: real)

  /** The most negative finite single-precision float, the starting maximum. */
  const FloatMinValue: real := -340282346638528859811704183484516925440.0

  const NoFigures: TeamFigures := TeamFigures(0.0, FloatMinValue, 0.0, 0.0, 0.0, 0)

  /** The keys, in the order the statistics are reported. */
  const Keys: seq<string> := [
    "Team/Blue/MeanReward", "Team/Red/MeanReward",
    "Team/Blue/MaxReward", "Team/Red/MaxReward",
    "Role/Blue/HitterReward", "Role/Blue/SetterReward", "Role/Blue/PasserReward",
    "Role/Red/HitterReward", "Role/Red/SetterReward", "Role/Red/PasserReward"]

  function Max(a: real, b: real): (m: real)
    ensures m >= a && m >= b
    ensures m == a || m == b
  {
    if a > b then a else b
  }

  /** The figures after one more agent of the team with `role` and `reward`;
      a Generic agent counts towards sum, maximum and count only. */
  function Record(f: TeamFigures, role: Role, reward: real): TeamFigures
  {
    var g := f.(sum := f.sum + reward, max := Max(f.max, reward), count := f.count + 1);
    match role
    case Hitter => g.(hitter := f.hitter + reward)
    case Setter => g.(setter := f.setter + reward)
    case Passer => g.(passer := f.passer + reward)
    case Generic => g
  }

  /** The figures of `team` over the agent list, entry by entry. */
  function Figures(agents: seq<Option<AgentRecord>>, team: Team): TeamFigures
    decreases |agents|
  {
    if agents == [] then NoFigures
    else
      var f := Figures(agents[..|agents| - 1], team);
      match agents[|agents| - 1]
      case None => f
      case Some(a) => if a.teamId == team then Record(f, a.role, a.cumulativeReward) else f
  }

  /** The mean reward of a team, 0 for a team without agents. */
  function Mean(f: TeamFigures): (m: real)
    ensures f.count > 0 ==> m * f.count as real == f.sum
    ensures f.count == 0 ==> m == 0.0
  {
    if f.count > 0 then f.sum / f.count as real else 0.0
  }

  // ---------------------------------------------------------------------
  // A reference definition: the rewards themselves, listed per team

  /** The cumulative rewards of the non-null agents of `team` with a role
      satisfying `roles`, in list order. */
  function Rewards(agents: seq<Option<AgentRecord>>, team: Team, roles: set<Role>): seq<real>
    decreases |agents|
  {
    if agents == [] then []
    else
      var rs := Rewards(agents[..|agents| - 1], team, roles);
      match agents[|agents| - 1]
      case None => rs
      case Some(a) => if a.teamId == team && a.role in roles then rs + [a.cumulativeReward] else rs
  }

  const AllRoles: set<Role> := {Passer, Setter, Hitter, Generic}

  function Sum(s: seq<real>): real
    decreases |s|
  {
    if s == [] then 0.0 else Sum(s[..|s| - 1]) + s[|s| - 1]
  }

  /** The number of entries the logger skips: null entries and agents of
      neither Blue nor Red. */
  function Skipped(agents: seq<Option<AgentRecord>>): nat
    decreases |agents|
  {
    if agents == [] then 0
    else
      Skipped(agents[..|agents| - 1]) +
      match agents[|agents| - 1]
      case None => 1
      case Some(a) => if a.teamId == Other then 1 else 0
  }

  lemma SumSnoc(s: seq<real>, x: real)
    ensures Sum(s + [x]) == Sum(s) + x
  {
    assert (s + [x])[..|s|] == s;
  }

  /** The count and the sum are those of the team's rewards. */
  lemma {:induction false} FiguresCountAndSum(agents: seq<Option<AgentRecord>>, team: Team)
    ensures Figures(agents, team).count == |Rewards(agents, team, AllRoles)|
    ensures Figures(agents, team).sum == Sum(Rewards(agents, team, AllRoles))
    decreases |agents|
  {
    if agents != [] {
      var init := agents[..|agents| - 1];
      FiguresCountAndSum(init, team);
      match agents[|agents| - 1]
      case None =>
      case Some(a) =>
        if a.teamId == team {
          SumSnoc(Rewards(init, team, AllRoles), a.cumulativeReward);
        }
    }
  }

  /** The role figure a hitter, setter or passer adds to. */
  function RoleFigure(f: TeamFigures, role: Role): real
    requires role != Generic
  {
    match role
    case Hitter => f.hitter
    case Setter => f.setter
    case Passer => f.passer
  }

  /** One more agent adds its reward to exactly its own role's figure. */
  lemma RecordRoleFigure(f: TeamFigures, role: Role, reward: real, r: Role)
    requires r != Generic
    ensures RoleFigure(Record(f, role, reward), r) == RoleFigure(f, r) + (if r == role then reward else 0.0)
  {
  }

  /** The hitter, setter and passer figures are the sums of the rewards of
      the team's hitters, setters and passers. */
  lemma {:induction false} FiguresRoleSum(agents: seq<Option<AgentRecord>>, team: Team, role: Role)
    requires role != Generic
    ensures RoleFigure(Figures(agents, team), role) == Sum(Rewards(agents, team, {role}))
    decreases |agents|
  {
    if agents != [] {
      var init := agents[..|agents| - 1];
      FiguresRoleSum(init, team, role);
      var e := agents[|agents| - 1];
      if e.Some? && e.value.teamId == team {
        var a := e.value;
        assert Figures(agents, team) == Record(Figures(init, team), a.role, a.cumulativeReward);
        RecordRoleFigure(Figures(init, team), a.role, a.cumulativeReward, role);
        if a.role == role {
          assert Rewards(agents, team, {role}) == Rewards(init, team, {role}) + [a.cumulativeReward];
          SumSnoc(Rewards(init, team, {role}), a.cumulativeReward);
        } else {
          assert Rewards(agents, team, {role}) == Rewards(init, team, {role});
        }
      } else {
        assert Figures(agents, team) == Figures(init, team);
        assert Rewards(agents, team, {role}) == Rewards(init, team, {role});
      }
    }
  }

  /** The maximum is at least every reward of the team and at least the
      starting value, and it is either the starting value or one of the
      rewards; a team without agents reports the starting value. */
  lemma {:induction false} MaxIsLargestReward(agents: seq<Option<AgentRecord>>, team: Team)
    ensures forall r :: r in Rewards(agents, team, AllRoles) ==> Figures(agents, team).max >= r
    ensures Figures(agents, team).max >= FloatMinValue
    ensures Figures(agents, team).max == FloatMinValue
            || Figures(agents, team).max in Rewards(agents, team, AllRoles)
    ensures Rewards(agents, team, AllRoles) == [] ==> Figures(agents, team).max == FloatMinValue
    decreases |agents|
  {
    if agents != [] {
      MaxIsLargestReward(agents[..|agents| - 1], team);
    }
  }

  /** The three role sums and the Generic agents' rewards together make up
      the team sum. */
  lemma {:induction false} RoleSumsSplitTotal(agents: seq<Option<AgentRecord>>, team: Team)
    ensures Figures(agents, team).hitter + Figures(agents, team).setter
            + Figures(agents, team).passer + Sum(Rewards(agents, team, {Generic}))
            == Figures(agents, team).sum
    decreases |agents|
  {
    if agents != [] {
      var init := agents[..|agents| - 1];
      RoleSumsSplitTotal(init, team);
      match agents[|agents| - 1]
      case None =>
      case Some(a) =>
        if a.teamId == team && a.role == Generic {
          SumSnoc(Rewards(init, team, {Generic}), a.cumulativeReward);
        }
    }
  }

  /** Every entry is counted by exactly one team or skipped. */
  lemma {:induction false} EveryEntryAccounted(agents: seq<Option<AgentRecord>>)
    ensures Figures(agents, Blue).count + Figures(agents, Red).count + Skipped(agents) == |agents|
    decreases |agents|
  {
    if agents != [] {
      EveryEntryAccounted(agents[..|agents| - 1]);
    }
  }

  /** The ten statistics reported for the Blue and Red figures. */
  function Report(blue: TeamFigures, red: TeamFigures): (records: seq<StatRecord>)
    ensures |records| == |Keys|
    ensures forall i :: 0 <= i < |records| ==> records[i].key == Keys[i]
    ensures records[0].value == Mean(blue) && records[1].value == Mean(red)
    ensures records[2].value == blue.max && records[3].value == red.max
    ensures records[4].value == blue.hitter && records[5].value == blue.setter
    ensures records[6].value == blue.passer
    ensures records[7].value == red.hitter && records[8].value == red.setter
    ensures records[9].value == red.passer
  {
    [StatRecord(Keys[0], Mean(blue)), StatRecord(Keys[1], Mean(red)),
     StatRecord(Keys[2], blue.max), StatRecord(Keys[3], red.max),
     StatRecord(Keys[4], blue.hitter), StatRecord(Keys[5], blue.setter), StatRecord(Keys[6], blue.passer),
     StatRecord(Keys[7], red.hitter), StatRecord(Keys[8], red.setter), StatRecord(Keys[9], red.passer)]
  }

  /** Walks the agent list once, skipping null entries and agents of neither
      team, accumulating each team's figures, then reports the ten
      statistics in order. */
  method LogStats(agents: seq<Option<AgentRecord>>) returns (records: seq<StatRecord>)
    ensures records == Report(Figures(agents, Blue), Figures(agents, Red))
    ensures records[0].value == Mean(Figures(agents, Blue)) && records[1].value == Mean(Figures(agents, Red))
    ensures records[2].value == Figures(agents, Blue).max && records[3].value == Figures(agents, Red).max
  {
    var blueSum, redSum := 0.0, 0.0;
    var blueMax, redMax := FloatMinValue, FloatMinValue;
    var blueHitter, redHitter := 0.0, 0.0;
    var blueSetter, redSetter := 0.0, 0.0;
    var bluePasser, redPasser := 0.0, 0.0;
    var blueCount: nat, redCount: nat := 0, 0;

    var i := 0;
    while i < |agents|
      invariant 0 <= i <= |agents|
      invariant TeamFigures(blueSum, blueMax, blueHitter, blueSetter, bluePasser, blueCount)
                == Figures(agents[..i], Blue)
      invariant TeamFigures(redSum, redMax, redHitter, redSetter, redPasser, redCount)
                == Figures(agents[..i], Red)
    {
      assert agents[..i + 1][..i] == agents[..i];
      var entry := agents[i];
      if entry.Some? {
        var agent := entry.value;
        if agent.teamId == Blue {
          var reward := agent.cumulativeReward;
          blueSum := blueSum + reward;
          blueMax := Max(blueMax, reward);
          match agent.role {
            case Hitter => blueHitter := blueHitter + reward;
            case Setter => blueSetter := blueSetter + reward;
            case Passer => bluePasser := bluePasser + reward;
            case Generic =>
          }
          blueCount := blueCount + 1;
        } else if agent.teamId == Red {
          var reward := agent.cumulativeReward;
          redSum := redSum + reward;
          redMax := Max(redMax, reward);
          match agent.role {
            case Hitter => redHitter := redHitter + reward;
            case Setter => redSetter := redSetter + reward;
            case Passer => redPasser := redPasser + reward;
            case Generic =>
          }
          redCount := redCount + 1;
        }
      }
      i := i + 1;
    }
    assert agents[..i] == agents;

    var blueMean := if blueCount > 0 then blueSum / blueCount as real else 0.0;
    var redMean := if redCount > 0 then redSum / redCount as real else 0.0;

    records := [];
    records := records + [StatRecord("Team/Blue/MeanReward", blueMean)];
    records := records + [StatRecord("Team/Red/MeanReward", redMean)];
    records := records + [StatRecord("Team/Blue/MaxReward", blueMax)];
    records := records + [StatRecord("Team/Red/MaxReward", redMax)];
    records := records + [StatRecord("Role/Blue/HitterReward", blueHitter)];
    records := records + [StatRecord("Role/Blue/SetterReward", blueSetter)];
    records := records + [StatRecord("Role/Blue/PasserReward", bluePasser)];
    records := records + [StatRecord("Role/Red/HitterReward", redHitter)];
    records := records + [StatRecord("Role/Red/SetterReward", redSetter)];
    records := records + [StatRecord("Role/Red/PasserReward", redPasser)];
  }
}
